=== FILE: README.md ===
# Webhook grading pipeline — a Dafny model

This project models the core of a small grading server. GitHub sends it a
push notification. The server checks the notification and answers at once.
If the push is accepted, a background run clones the repository, runs a
grading container on it, reads the score from `.report.json` and removes the
workspace.

The model has five modules:

- `PyStr` (`pystr.dfy`): the Python string builtins the handler relies on.
  These are `str.strip()`, `str.split("=")`, `startswith`, the slice
  `s[:8]` and `os.path.join`, with their round-trip and shape lemmas.
- `Admission` (`admission.dfy`): the synchronous part of `webhook`. It covers
  `_verify_signature`, the event-type filter, `_check_whitelist` and the
  workspace path. All of it is pure functions, and each outcome is a
  `Decision`: `Rejected(400 | 401 | 403)`, `ServerError` (an uncaught
  exception, HTTP 500), `Ignored` or `Accepted(job)`.
- `Filesystem` (`filesystem.dfy`): class `Store`, whose field `workspaces`
  maps each existing workspace directory to the files in it. Its methods
  are `shutil.rmtree(..., ignore_errors=True)` and `git clone`.
- `Runner` (`runner.dfy`): `grade_repository` as a method over a `Store`. It
  is specified by the function `GradeSpec`, which gives the outcome from the
  workspace found and the container's exit status.
- `Pipeline` (`pipeline.dfy`): the background run `_clone_and_grade` as a
  method. `Deliver` is one whole delivery: the response first, then the one
  run it schedules, if any.

The HMAC digest is a function-valued parameter
`hmac: (string, seq<byte>) -> string`. It stands for the hex digest of
HMAC-SHA256 (RFC 2104) of the raw body. What the clone fetches (nothing,
a partial tree whose checkout failed, or a complete tree) and the container's
exit status are method parameters.

Some behaviour of the code is worth stating plainly, because the model
follows it:

- A signature header with a second `=`, or with non-ASCII characters after
  `sha256=`, does not get a 401. The two-way unpack of `split("=")` raises
  `ValueError` in the first case, and `hmac.compare_digest` raises
  `TypeError` in the second. Both become HTTP 500.
- The body keys are read in source order. A missing `repository.full_name`
  is a 500 before the allow-list check. A missing `owner.login` or `after`
  is a 500 only for an allow-listed repository. A missing `clone_url` is
  noticed only inside the background run, after the old workspace was
  removed.
- The allow-list strips the incoming name but not its own entries.
- `os.path.join` drops `submissions` when the login starts with `/`.
- `git clone --depth 1` fetches the remote's default branch. It does not
  fetch the pushed commit `after`, which only names the workspace.
- The grading container mounts the workspace read-only, so it cannot write
  `.report.json` there. In the model, the report that is read is the one the
  clone brought in (`ScoreComesFromClonedTree`). If the repository commits
  `.report.json` as a symbolic link, the read follows it to a file outside
  the workspace; the model does not capture that (see "## Left out").
- No CPU, memory or time limit is passed to the container. The model claims
  none.
- When the clone fails, the run raises before its `try`, so the `finally`
  does not run. A clone that fails during the transfer leaves nothing, since
  the old workspace was removed just before it. A clone whose checkout fails
  ("Clone succeeded, but checkout failed", exit status 128) keeps the
  directory with what it wrote. That partial workspace stays on disk until a
  later run for the same path removes it (`CheckoutFailureLeavesWorkspace`).

## Model

| member | source | states |
|---|---|---|
| PyStr.StripLeading | app/main.py:33 | the leading-strip part of `strip()`: the result is no longer than its input and does not start with whitespace (the full shape is `StripLeadingShape`) |
| PyStr.StripTrailing | app/main.py:33 | the trailing-strip part of `strip()`: the result is no longer than its input and does not end with whitespace (the full shape is `StripTrailingShape`) |
| PyStr.Strip | app/main.py:33 | `full_name.strip()`: the result is no longer than the name; `StripIsTrimmed` and `StripPadded` state what it removes |
| PyStr.StripLeadingShape | app/main.py:33 | the leading-strip part of `strip()` removes a whitespace prefix only, and what is left does not start with whitespace |
| PyStr.StripTrailingShape | app/main.py:33 | the trailing-strip part of `strip()` removes a whitespace suffix only, and what is left does not end with whitespace |
| PyStr.StripIsTrimmed | app/main.py:33 | the result of `strip()` neither starts nor ends with whitespace |
| PyStr.StripPadded | app/main.py:33 | `strip()` of a trimmed name padded with any whitespace on either side gives back exactly that name |
| PyStr.StripTrimmed | app/main.py:33 | a name with no whitespace at either end is left unchanged by `strip()` |
| PyStr.Split | app/main.py:26 | `split("=")` yields one more piece than there are `=` characters, and no piece contains `=` |
| PyStr.JoinSplit | app/main.py:26 | joining the pieces of `split` with the separator gives back the original string |
| PyStr.SplitJoin | app/main.py:26 | splitting a join of separator-free pieces gives back those pieces |
| PyStr.Take | app/main.py:59 | `after[:8]` is a prefix of `after` of length `min(8, len(after))` |
| PyStr.PosixJoin | app/main.py:60 | `os.path.join(a, b)` always ends with `b`; an absolute `b` is the whole result, and otherwise the result starts with `a` (`WorkspacePathUnderRoot` and `WorkspacePathAbsoluteLogin` give the two workspace cases) |
| Admission.SignatureHeaderParts | app/main.py:23-26 | a `sha256=` header splits into exactly two pieces iff no `=` follows the prefix, and the pieces are then `sha256` and the digest part |
| Admission.VerifySignature | app/main.py:21-29 | a header that passes is exactly `sha256=` followed by the digest of the body under the secret |
| Admission.Decide | app/main.py:47-76 | the handler's decision once the signature check has ended: it is 200 (ignored or accepted) iff the check passed and the request is either not a push or accepted, and an accepted request is a push naming an allow-listed repository; `AcceptedIff` and `NotAllowedIs403` give the full case split |
| Admission.Webhook | app/main.py:45-76 | the whole `webhook` decision: a request that is ignored or accepted carried exactly `sha256=` plus the body's digest, and an accepted one is a push; `SignatureCheckedFirst`, `NonPushIgnored` and `AcceptedIff` state the rest |
| Admission.Scheduled | app/main.py:75 | a response schedules at most one background run |
| Admission.MissingSignatureIs400 | app/main.py:22-24 | a missing header, or one without the `sha256=` prefix, gets 400 and schedules nothing, whatever else the request holds |
| Admission.SignatureIff | app/main.py:26-29 | for `sha256=<x>` with no further `=` and ASCII `x`, the check passes iff `x` equals the digest, and otherwise gives 401 |
| Admission.SecondEqualsSignIsServerError | app/main.py:26 | a second `=` in the header makes the two-way unpack fail, which is a 500 and not a 401 |
| Admission.NonAsciiSignatureIsServerError | app/main.py:28 | a non-ASCII digest part makes `compare_digest` raise, which is a 500 and not a 401 |
| Admission.GenuineSignaturePasses | app/main.py:27-29 | the header GitHub sends, `sha256=` plus the hex digest of the body under the secret, passes |
| Admission.ForeignDigestIs401 | app/main.py:27-29 | a digest computed with another secret gets 401 whenever the two digests differ |
| Admission.SignatureCheckedFirst | app/main.py:47-51 | a request that fails the signature check gets 400, 401 or 500 whatever its event type, and schedules nothing |
| Admission.NonPushIgnored | app/main.py:50-51 | a correctly signed request of another event type gets `{"ignored": True}` with 200 and schedules nothing, whatever its body |
| Admission.AcceptedIff | app/main.py:45-76 | a request is accepted iff it is correctly signed, is a push, names an allow-listed repository and carries login and `after`; it then schedules exactly one run at `WorkspacePath(login, after)`, and otherwise none |
| Admission.NotAllowedIs403 | app/main.py:53-56 | a correctly signed push of a repository outside the allow-list gets 403, before login or `after` are looked up |
| Admission.Allowed | app/main.py:32-34 | `_check_whitelist` passes iff the stripped name is an allow-list entry; for a name with no surrounding whitespace that is plain membership (`AllowedIgnoresPadding` covers padded names) |
| Admission.AllowedIgnoresPadding | app/main.py:32-34 | whitespace around the repository name is ignored, and the trimmed name must be an exact entry of the allow-list |
| Admission.AllowedIsCaseSensitive | app/main.py:32-34 | repository names are compared without case folding |
| Admission.PaddedEntryNeverMatches | app/main.py:32-34 | allow-list entries are not stripped, so an entry that begins with a space never matches |
| Admission.WorkspacePath | app/main.py:58-60 | the workspace path `os.path.join("submissions", f"{login}_{after[:8]}")` ends with `<login>_<after[:8]>`; the lemmas below give its exact form |
| Admission.WorkspacePathUnderRoot | app/main.py:58-60 | for a login that is not an absolute path, the workspace is `submissions/<login>_<after[:8]>` |
| Admission.WorkspacePathAbsoluteLogin | app/main.py:60 | for a login starting with `/`, `os.path.join` discards `submissions` |
| Admission.WorkspacePathInjective | app/main.py:58-60 | for commit hashes of at least 8 characters, two pushes get the same workspace path string iff they have the same login and the same 8-character prefix |
| Admission.ShortCommitsCanCollide | app/main.py:59-60 | with commit hashes shorter than 8 characters, different logins can share a workspace |
| Filesystem.Store.RemoveTree | app/main.py:64 | after `rmtree` with `ignore_errors` the directory is absent and nothing else changed; a missing directory is no error |
| Filesystem.Store.Clone | app/main.py:65 | the clone succeeds iff the remote serves a complete tree and the destination does not exist; an existing destination is left alone, a failed transfer adds nothing, and a failed checkout adds the partial workspace although it reports failure |
| Runner.ContainerName | app/core/runner.py:11 | the container name is 15 characters long: `grader_` followed by 8 hex digits |
| Runner.ReportScore | app/core/runner.py:35 | `result.get("score", 0)` is either 0 or one of the report's values; `ScoreIff` states which |
| Runner.GradeSpec | app/core/runner.py:10-40 | the outcome of grading a workspace: `RuntimeError` iff the container exited non-zero, and a score only when the workspace holds `.report.json`; `ScoreIff`, `MissingReportIsFileNotFound` and `MalformedReportRaises` give the rest |
| Runner.MalformedReportRaises | app/core/runner.py:28-35 | after a clean container exit, a `.report.json` that is a directory passes `os.path.exists` and gives `IsADirectory` at `open`, a report that `json.load` rejects gives `ParseError`, and one that is not a JSON object gives `AttributeError` at `.get` |
| Runner.GradeRepository | app/core/runner.py:10-40 | the outcome is `GradeSpec` of the workspace and the exit status; the workspace is removed iff a score is returned, and every exception leaves it in place |
| Runner.DockerFailureShortCircuits | app/core/runner.py:15-26 | a non-zero container exit is `RuntimeError`, whatever the workspace holds |
| Runner.MissingReportIsFileNotFound | app/core/runner.py:28-30 | after a clean container exit, a `.report.json` path with nothing at it, not even a directory, is `FileNotFound`, and so is a missing workspace |
| Runner.ScoreIff | app/core/runner.py:32-35 | a score is returned iff the container exited with 0 and the report parses to a JSON object; the score is its `score` field, or 0 when it has none |
| Pipeline.RunSpec | app/main.py:62-73 | a background run reaches grading iff the clone URL is present and the clone fetched a complete tree |
| Pipeline.Leftover | app/main.py:64-67 | a run leaves a workspace behind iff it had a clone URL and the checkout failed; what it leaves is the partial tree, and the run then ends as `CloneFailed` |
| Pipeline.AfterRun | app/main.py:62-73 | after a run at one path, that path holds a workspace iff one was left over, and then holds exactly that tree; every other path keeps the same workspace with the same contents |
| Pipeline.CloneAndGrade | app/main.py:62-73 | the run ends as `RunSpec` says; the workspaces afterwards are `AfterRun` of those before, so the job's path holds only a partial clone whose checkout failed, and no other path string changes |
| Pipeline.Deliver | app/main.py:45-76 | the response is `Webhook` of the request; an accepted push runs exactly its one job with the final workspaces given by `AfterRun`, and any other response runs nothing and leaves the workspaces unchanged |
| Pipeline.DeliverTwice | app/main.py:58-76 | delivering the same push twice gives the same response both times, grades each run on its own inputs only, and the final workspaces depend only on the second run, whose `rmtree` removes whatever the first left |
| Pipeline.CheckoutFailureLeavesWorkspace | app/main.py:64-67 | a clone whose checkout fails ends the run as `CloneFailed` and leaves its partial workspace at the job's path |
| Pipeline.ScoreComesFromClonedTree | app/core/runner.py:19-35 | with a read-only mount, a run scores exactly what the cloned `.report.json` says |
| Pipeline.ScoredRunNeedsEverySuccess | app/main.py:64-68 | a run that yields a score had a clone URL, a complete clone and a clean container exit, and it leaves no workspace behind |
| Pipeline.AcceptedPushIsGraded | app/main.py:45-76 | a correctly signed, allow-listed push whose clone holds `{"score": s}` and whose container exits with 0 is accepted and graded `s` |

## Left out

- HMAC-SHA256 and the constant-time `hmac.compare_digest`: the digest is an opaque function parameter, and only equality is modelled, not timing.
- FastAPI routing, the `/` and `/health` endpoints, uvicorn start-up and logging: these are I/O plumbing. Log lines are not modelled.
- The `git` and `docker` subprocesses: only what the clone fetches (nothing, a partial tree whose checkout failed, or a complete tree) and the container's exit status are inputs. Why a checkout fails (disk space, a path the platform refuses) is not modelled. The image name, the `--rm` teardown, the failure to start the `docker` binary at all, and Docker creating a missing mount directory are not modelled.
- `uuid4()` randomness: `ContainerName` takes the hex string as a parameter. The name is not otherwise used by the model.
- JSON decoding of the request body and of the report: the parsed fields are inputs. Non-string values for `full_name`, `login` or `after` are not modelled. Some of them raise (a non-string `full_name` in `strip`, an integer `after` in slicing); others do not (an integer `login` is formatted into the path, and a list `after` slices). A non-integer `score` is carried as the opaque value `JOther`.
- `BackgroundTasks` and concurrency: runs execute one at a time after the response. The race between two concurrent pushes with the same login and commit prefix is not modelled.
- The settings object of app/config.py: the secret and the allow-list are passed in as `Config`. Its class-body validation is not modelled.
- app/core/testcases/basegrader.py has no behaviour; the grading logic runs inside the container.
- Symbolic links in the cloned tree: a `Tree` fixes each file's parsed content at clone time, so a `.report.json` committed as a symlink, which `os.path.exists` and `open` would follow to a file outside the workspace, is not modelled.
- Strings are sequences of Unicode scalar values; lone surrogate code points, which Python's `str` admits (a JSON `"\ud800"`), are not represented.
- Runner.GradeSpec: a directory is an entry of its own in a `Tree` (`Directory`), and `.report.json` as a directory gives `IsADirectory`. A tree that lists a file such as `.report.json/x` without listing `.report.json` itself as a directory is not ruled out. For such a tree, the model gives `FileNotFound`, where `os.path.exists` finds the directory and `open` raises `IsADirectoryError`.
- Runner.MissingReportIsFileNotFound: its premise "no `.report.json` entry" means nothing at that path, a directory included, only for trees that list their directories; see the line above.
- Filesystem detail: `rmtree` on a path that is a plain file, permission errors swallowed by `ignore_errors`, and cloning into an existing empty directory.
- Admission.WorkspacePathInjective: distinct path strings are taken as distinct directories. Path aliasing is not modelled, for example an absolute login `/srv/x/submissions/bob` naming the same directory as `submissions/bob`, or `..` components. Nesting is not modelled either: a login containing `/` gives a workspace inside another one.
- Pipeline.CloneAndGrade: workspaces are keyed by path string, so "no other workspace changes" holds for other path strings only. An `rmtree` or clone at a path that aliases or contains another workspace directory is not modelled.
- All uncaught exceptions of the handler become the single outcome `ServerError`, without the exception type.

=== FILE: admission.dfy ===
/**
 * The synchronous part of the `/webhook` endpoint (app/main.py): signature
 * check, event-type filter, allow-list check and the derivation of the
 * workspace path. Every outcome is a value of `Decision`; an exception that
 * FastAPI turns into an HTTP 500 is `ServerError`.
 */
module Admission {
  import opened PyStr

  newtype byte = x: int | 0 <= x < 256

  /**
   * The hex digest of HMAC-SHA256 (RFC 2104) of a body under a secret,
   * `hmac.new(secret.encode(), body, sha256).hexdigest()`; the cryptography
   * itself is not modelled, so the digest is supplied as a function.
   */
  type HmacOracle = (string, seq<byte>) -> string

  const SIGNATURE_PREFIX := "sha256="
  const PUSH_EVENT := "push"
  const WORKSPACE_ROOT := "submissions"
  const SHORT_SHA_LENGTH := 8

  /** The settings the handler reads: `SECRET` and `ALLOWED_REPOS`. */
  datatype Config = Config(secret: string, allowedRepos: seq<string>)

  /**
   * The keys of the JSON body the handler looks up: `repository.full_name`,
   * `repository.owner.login`, `repository.clone_url` and `after`; `None` is a
   * missing key.
   */
  datatype Payload = Payload(
    fullName: Option<string>,
    login: Option<string>,
    cloneUrl: Option<string>,
    after: Option<string>)

  /**
   * One POST to `/webhook`: the `X-Hub-Signature-256` and `X-GitHub-Event`
   * headers, the raw body, and the body parsed as JSON (`None` when it is not
   * JSON).
   */
  datatype Request = Request(
    signature: Option<string>,
    event: Option<string>,
    body: seq<byte>,
    payload: Option<Payload>)

  /** How `_verify_signature` ends. */
  datatype SigCheck =
    | SigValid         // returns normally
    | SigMissing       // HTTPException 400
    | SigMismatch      // HTTPException 401
    | SigUnpackError   // ValueError from the two-way unpack of `split("=")`
    | SigNonAscii      // TypeError from `compare_digest` on a non-ASCII str

  /** The background run `_clone_and_grade` closes over. */
  datatype Job = Job(path: string, cloneUrl: Option<string>)

  datatype Decision =
    | Rejected(status: nat)   // an HTTPException with this status code
    | ServerError             // an uncaught exception: HTTP 500
    | Ignored                 // `{"ignored": True}`
    | Accepted(job: Job)      // `{"accepted": True}`, with `job` scheduled

  /** The HTTP status code of the response. */
  function Status(d: Decision): (code: nat) {
    match d
    case Rejected(s) => s
    case ServerError => 500
    case Ignored => 200
    case Accepted(_) => 200
  }

  /** The background runs a response leaves scheduled. */
  function Scheduled(d: Decision): (jobs: seq<Job>)
    ensures |jobs| <= 1
  {
    if d.Accepted? then [d.job] else []
  }

  /** A `sha256=` header splits on `=` into exactly two pieces iff its digest part holds no `=`. */
  lemma SignatureHeaderParts(h: string)
    requires StartsWith(h, SIGNATURE_PREFIX)
    ensures |Split(h, '=')| == 2 <==> '=' !in h[|SIGNATURE_PREFIX|..]
    ensures '=' !in h[|SIGNATURE_PREFIX|..] ==> Split(h, '=') == ["sha256", h[|SIGNATURE_PREFIX|..]]
  {
    var sent := h[|SIGNATURE_PREFIX|..];
    assert h == "sha256" + ['='] + sent;
    SplitAfterFree("sha256", '=', sent);
    CountZero(sent, '=');
    if '=' !in sent {
      SplitFree(sent, '=');
    }
  }

  /**
   * `_verify_signature`: a header that passes is exactly `sha256=` followed
   * by the digest of the body under the secret.
   */
  function VerifySignature(header: Option<string>, body: seq<byte>, secret: string, hmac: HmacOracle): (r: SigCheck)
    ensures r == SigValid ==> header == Some(SIGNATURE_PREFIX + hmac(secret, body))
  {
    if header.None? || !StartsWith(header.value, SIGNATURE_PREFIX) then SigMissing
    else
      var parts := Split(header.value, '=');
      if |parts| != 2 then SigUnpackError
      else
        var sent, expected := parts[1], hmac(secret, body);
        if !IsAscii(sent) || !IsAscii(expected) then SigNonAscii
        else if sent == expected then
          SignatureHeaderParts(header.value);
          assert header.value == SIGNATURE_PREFIX + sent;
          SigValid
        else SigMismatch
  }

  /** `_check_whitelist` passes: the stripped name is an entry of the allow-list. */
  predicate Allowed(fullName: string, allowedRepos: seq<string>): (b: bool)
    ensures Trimmed(fullName) ==> (b <==> fullName in allowedRepos)
  {
    StripTrimmed(fullName);
    Strip(fullName) in allowedRepos
  }

  /** `os.path.join("submissions", f"{login}_{after[:8]}")`. */
  function WorkspacePath(login: string, after: string): (path: string)
    ensures var leaf := login + "_" + Take(after, SHORT_SHA_LENGTH);
      |leaf| <= |path| && path[|path| - |leaf|..] == leaf
  {
    PosixJoin(WORKSPACE_ROOT, login + "_" + Take(after, SHORT_SHA_LENGTH))
  }

  /** The decision sequence of `webhook`. */
  function Webhook(cfg: Config, req: Request, hmac: HmacOracle): (d: Decision)
    ensures (d.Ignored? || d.Accepted?) ==> req.signature == Some(SIGNATURE_PREFIX + hmac(cfg.secret, req.body))
    ensures d.Accepted? ==> req.event == Some(PUSH_EVENT)
  {
    Decide(VerifySignature(req.signature, req.body, cfg.secret, hmac), cfg, req)
  }

  /** What `webhook` answers once `_verify_signature` has ended with `sig`. */
  function Decide(sig: SigCheck, cfg: Config, req: Request): (d: Decision)
    ensures sig != SigValid ==> !(d.Ignored? || d.Accepted?)
    ensures sig == SigValid && req.event != Some(PUSH_EVENT) ==> d == Ignored
    ensures req.event == Some(PUSH_EVENT) ==> !d.Ignored?
    ensures d.Accepted? ==>
      req.event == Some(PUSH_EVENT) && req.payload.Some? && req.payload.value.fullName.Some? &&
      Allowed(req.payload.value.fullName.value, cfg.allowedRepos)
  {
    match sig
    case SigMissing => Rejected(400)
    case SigMismatch => Rejected(401)
    case SigUnpackError => ServerError
    case SigNonAscii => ServerError
    case SigValid =>
      if req.event != Some(PUSH_EVENT) then Ignored
      else if req.payload.None? || req.payload.value.fullName.None? then ServerError
      else
        var p := req.payload.value;
        if !Allowed(p.fullName.value, cfg.allowedRepos) then Rejected(403)
        else if p.login.None? || p.after.None? then ServerError
        else Accepted(Job(WorkspacePath(p.login.value, p.after.value), p.cloneUrl))
  }

  // ---------------------------------------------------------------------
  // The signature check

  /** A missing header, or one without the `sha256=` prefix, is a 400 whatever else the request holds. */
  lemma MissingSignatureIs400(cfg: Config, req: Request, hmac: HmacOracle)
    requires req.signature.None? || !StartsWith(req.signature.value, SIGNATURE_PREFIX)
    ensures VerifySignature(req.signature, req.body, cfg.secret, hmac) == SigMissing
    ensures Webhook(cfg, req, hmac) == Rejected(400) && Scheduled(Webhook(cfg, req, hmac)) == []
  {
  }

  /**
   * For `sha256=<x>` with no further `=` and an ASCII `x`, the check passes
   * iff `x` is the digest of the body, and otherwise answers 401.
   */
  lemma {:induction false} SignatureIff(h: string, body: seq<byte>, secret: string, hmac: HmacOracle)
    requires StartsWith(h, SIGNATURE_PREFIX)
    requires '=' !in h[|SIGNATURE_PREFIX|..]
    requires IsAscii(h[|SIGNATURE_PREFIX|..]) && IsAscii(hmac(secret, body))
    ensures var r := VerifySignature(Some(h), body, secret, hmac);
      (r == SigValid <==> h[|SIGNATURE_PREFIX|..] == hmac(secret, body)) &&
      (r == SigValid || r == SigMismatch)
  {
    SignatureHeaderParts(h);
  }

  /** A second `=` in the header makes the two-way unpack fail: a 500, not a 401. */
  lemma {:induction false} SecondEqualsSignIsServerError(cfg: Config, req: Request, hmac: HmacOracle)
    requires req.signature.Some? && StartsWith(req.signature.value, SIGNATURE_PREFIX)
    requires '=' in req.signature.value[|SIGNATURE_PREFIX|..]
    ensures VerifySignature(req.signature, req.body, cfg.secret, hmac) == SigUnpackError
    ensures Webhook(cfg, req, hmac) == ServerError
  {
    SignatureHeaderParts(req.signature.value);
  }

  /** A non-ASCII digest part makes `compare_digest` raise: a 500, not a 401. */
  lemma {:induction false} NonAsciiSignatureIsServerError(cfg: Config, req: Request, hmac: HmacOracle)
    requires req.signature.Some? && StartsWith(req.signature.value, SIGNATURE_PREFIX)
    requires '=' !in req.signature.value[|SIGNATURE_PREFIX|..]
    requires !IsAscii(req.signature.value[|SIGNATURE_PREFIX|..])
    ensures VerifySignature(req.signature, req.body, cfg.secret, hmac) == SigNonAscii
    ensures Webhook(cfg, req, hmac) == ServerError
  {
    SignatureHeaderParts(req.signature.value);
  }

  /** The header GitHub sends, `sha256=` plus the hex digest of the body, passes. */
  lemma {:induction false} GenuineSignaturePasses(body: seq<byte>, secret: string, hmac: HmacOracle)
    requires IsHex(hmac(secret, body))
    ensures VerifySignature(Some(SIGNATURE_PREFIX + hmac(secret, body)), body, secret, hmac) == SigValid
  {
    var h := SIGNATURE_PREFIX + hmac(secret, body);
    assert h[|SIGNATURE_PREFIX|..] == hmac(secret, body);
    SignatureIff(h, body, secret, hmac);
  }

  /** A hex digest computed with another secret is answered 401 when the two digests differ. */
  lemma {:induction false} ForeignDigestIs401(cfg: Config, req: Request, otherSecret: string, hmac: HmacOracle)
    requires IsHex(hmac(otherSecret, req.body)) && IsHex(hmac(cfg.secret, req.body))
    requires hmac(otherSecret, req.body) != hmac(cfg.secret, req.body)
    requires req.signature == Some(SIGNATURE_PREFIX + hmac(otherSecret, req.body))
    ensures Webhook(cfg, req, hmac) == Rejected(401)
  {
    var h := req.signature.value;
    var sent := hmac(otherSecret, req.body);
    assert h[|SIGNATURE_PREFIX|..] == sent;
    SignatureIff(h, req.body, cfg.secret, hmac);
  }

  // ---------------------------------------------------------------------
  // Order of the checks

  /** The signature is checked first: a request that fails it is never ignored or accepted. */
  lemma SignatureCheckedFirst(cfg: Config, req: Request, hmac: HmacOracle)
    requires VerifySignature(req.signature, req.body, cfg.secret, hmac) != SigValid
    ensures var d := Webhook(cfg, req, hmac);
      (d == Rejected(400) || d == Rejected(401) || d == ServerError) && Scheduled(d) == []
  {
  }

  /**
   * A correctly signed request of any other event type is ignored with a
   * 200 and schedules nothing, whatever its body holds.
   */
  lemma NonPushIgnored(cfg: Config, req: Request, hmac: HmacOracle)
    requires VerifySignature(req.signature, req.body, cfg.secret, hmac) == SigValid
    requires req.event != Some(PUSH_EVENT)
    ensures Webhook(cfg, req, hmac) == Ignored
    ensures Status(Webhook(cfg, req, hmac)) == 200 && Scheduled(Webhook(cfg, req, hmac)) == []
  {
  }

  /**
   * A request is accepted iff it is correctly signed, is a push, names an
   * allow-listed repository and carries the owner login and `after`; it then
   * schedules exactly one run, at the path derived from those two.
   */
  lemma AcceptedIff(cfg: Config, req: Request, hmac: HmacOracle)
    ensures var d := Webhook(cfg, req, hmac);
      d.Accepted? <==>
        VerifySignature(req.signature, req.body, cfg.secret, hmac) == SigValid &&
        req.event == Some(PUSH_EVENT) &&
        req.payload.Some? && req.payload.value.fullName.Some? &&
        Allowed(req.payload.value.fullName.value, cfg.allowedRepos) &&
        req.payload.value.login.Some? && req.payload.value.after.Some?
    ensures var d := Webhook(cfg, req, hmac);
      d.Accepted? ==>
        Status(d) == 200 && Scheduled(d) == [d.job] &&
        d.job == Job(WorkspacePath(req.payload.value.login.value, req.payload.value.after.value),
                     req.payload.value.cloneUrl)
    ensures var d := Webhook(cfg, req, hmac);
      !d.Accepted? ==> Scheduled(d) == []
  {
    var sig := VerifySignature(req.signature, req.body, cfg.secret, hmac);
    assert Webhook(cfg, req, hmac) == Decide(sig, cfg, req);
  }

  /**
   * A correctly signed push of a repository outside the allow-list is a 403,
   * decided before the owner login or `after` are looked up.
   */
  lemma NotAllowedIs403(cfg: Config, req: Request, hmac: HmacOracle)
    requires VerifySignature(req.signature, req.body, cfg.secret, hmac) == SigValid
    requires req.event == Some(PUSH_EVENT)
    requires req.payload.Some? && req.payload.value.fullName.Some?
    requires !Allowed(req.payload.value.fullName.value, cfg.allowedRepos)
    ensures Webhook(cfg, req, hmac) == Rejected(403)
  {
    var sig := VerifySignature(req.signature, req.body, cfg.secret, hmac);
    assert Webhook(cfg, req, hmac) == Decide(sig, cfg, req);
  }

  // ---------------------------------------------------------------------
  // The allow-list

  /** Whitespace around the repository name is ignored; the trimmed name must be an exact entry. */
  lemma AllowedIgnoresPadding(w1: string, name: string, w2: string, allowedRepos: seq<string>)
    requires AllSpace(w1) && AllSpace(w2) && Trimmed(name)
    ensures Allowed(w1 + name + w2, allowedRepos) <==> name in allowedRepos
  {
    StripPadded(w1, name, w2);
  }

  /** Names are compared without case folding. */
  lemma AllowedIsCaseSensitive()
    ensures Allowed("Org/Repo", ["Org/Repo"])
    ensures !Allowed("org/repo", ["Org/Repo"])
  {
    StripTrimmed("Org/Repo");
    StripTrimmed("org/repo");
    assert "org/repo"[0] != "Org/Repo"[0];
  }

  /**
   * Only the incoming name is stripped, not the allow-list entries: an entry
   * that begins with whitespace never matches anything.
   */
  lemma {:induction false} PaddedEntryNeverMatches(fullName: string, allowedRepos: seq<string>)
    requires forall i :: 0 <= i < |allowedRepos| ==> StartsWith(allowedRepos[i], " ")
    ensures !Allowed(fullName, allowedRepos)
  {
    StripIsTrimmed(fullName);
  }

  // ---------------------------------------------------------------------
  // The workspace path

  /** For a login that is not an absolute path, the workspace is `submissions/<login>_<after[:8]>`. */
  lemma WorkspacePathUnderRoot(login: string, after: string)
    requires !StartsWith(login, "/")
    ensures WorkspacePath(login, after) == "submissions/" + login + "_" + Take(after, SHORT_SHA_LENGTH)
  {
    var b := login + "_" + Take(after, SHORT_SHA_LENGTH);
    assert !StartsWith(b, "/") by {
      if login == [] { assert b[0] == '_'; } else { assert b[0] == login[0]; }
    }
  }

  /** `os.path.join` drops `submissions` when the login starts with `/`. */
  lemma WorkspacePathAbsoluteLogin(login: string, after: string)
    requires StartsWith(login, "/")
    ensures WorkspacePath(login, after) == login + "_" + Take(after, SHORT_SHA_LENGTH)
  {
    var b := login + "_" + Take(after, SHORT_SHA_LENGTH);
    assert b[0] == login[0];
  }

  /** Equal paths with prefixes of the same length and 8-character commit parts have equal logins and commit parts. */
  lemma PathPartsEqual(pre1: string, login1: string, p1: string, pre2: string, login2: string, p2: string)
    requires |pre1| == |pre2| && |p1| == SHORT_SHA_LENGTH && |p2| == SHORT_SHA_LENGTH
    requires pre1 + login1 + "_" + p1 == pre2 + login2 + "_" + p2
    ensures login1 == login2 && p1 == p2
  {
    var x := pre1 + login1 + "_" + p1;
    assert |login1| == |login2|;
    assert login1 == x[|pre1|..|pre1| + |login1|];
    assert p1 == x[|x| - 8..];
  }

  /**
   * For full commit hashes (at least 8 characters), two pushes share a
   * workspace path iff they have the same login and the same 8-character
   * commit prefix.
   */
  lemma {:induction false} WorkspacePathInjective(login1: string, after1: string, login2: string, after2: string)
    requires |after1| >= SHORT_SHA_LENGTH && |after2| >= SHORT_SHA_LENGTH
    ensures WorkspacePath(login1, after1) == WorkspacePath(login2, after2) <==>
      login1 == login2 && after1[..SHORT_SHA_LENGTH] == after2[..SHORT_SHA_LENGTH]
  {
    var p1, p2 := Take(after1, SHORT_SHA_LENGTH), Take(after2, SHORT_SHA_LENGTH);
    var abs1, abs2 := StartsWith(login1, "/"), StartsWith(login2, "/");
    var pre1 := if abs1 then "" else "submissions/";
    var pre2 := if abs2 then "" else "submissions/";
    if abs1 { WorkspacePathAbsoluteLogin(login1, after1); } else { WorkspacePathUnderRoot(login1, after1); }
    if abs2 { WorkspacePathAbsoluteLogin(login2, after2); } else { WorkspacePathUnderRoot(login2, after2); }
    assert WorkspacePath(login1, after1) == pre1 + login1 + "_" + p1;
    assert WorkspacePath(login2, after2) == pre2 + login2 + "_" + p2;
    if WorkspacePath(login1, after1) == WorkspacePath(login2, after2) {
      PathPartsEqual(pre1, login1, p1, pre2, login2, p2);
    }
  }

  /** With commit hashes shorter than 8 characters, different pushes can share a path. */
  lemma ShortCommitsCanCollide()
    ensures WorkspacePath("a_b", "c") == WorkspacePath("a", "b_c")
  {
    assert "a_b"[0] == 'a' && "a"[0] == 'a';
    WorkspacePathUnderRoot("a_b", "c");
    WorkspacePathUnderRoot("a", "b_c");
  }
}

=== FILE: filesystem.dfy ===
/**
 * The part of the host filesystem the grading pipeline touches: the
 * workspace directories under `submissions/`, each holding the files of one
 * cloned repository.
 */
module Filesystem {
  import opened PyStr

  /** A JSON value as `json.load` returns it: an integer, or any other value. */
  datatype Json = JInt(n: int) | JOther

  /** What is found at a path in a workspace: a directory, or a file as `json.load` reads it. */
  datatype Doc =
    | Directory                            // `open` raises IsADirectoryError
    | Unparsable                           // `json.load` raises
    | JsonObject(fields: map<string, Json>)  // a dict
    | JsonNonObject                        // a list, string, number, ...

  /**
   * The entries of one workspace, by path relative to the workspace
   * directory. A directory is an entry of its own (`Directory`), so an empty
   * directory, such as a submodule left unpopulated by the clone, is one too.
   */
  type Tree = map<string, Doc>

  /** The workspace at `path`, if the directory exists. */
  function Lookup(workspaces: map<string, Tree>, path: string): (w: Option<Tree>) {
    if path in workspaces then Some(workspaces[path]) else None
  }

  /**
   * What `git clone` gets from the remote: nothing (a network or
   * authentication failure), a repository whose checkout then fails ("Clone
   * succeeded, but checkout failed", exit 128, the directory is kept with
   * what was written), or a complete working tree.
   */
  datatype Fetch =
    | TransferFailed
    | CheckoutFailed(partial: Tree)
    | Fetched(tree: Tree)

  class Store {
    /** The workspace directories that exist, with their contents. */
    var workspaces: map<string, Tree>

    constructor (initial: map<string, Tree>)
      ensures workspaces == initial
    {
      workspaces := initial;
    }

    /**
     * `shutil.rmtree(path, ignore_errors=True)`: the directory is gone
     * afterwards; a missing directory is not an error.
     */
    method RemoveTree(path: string)
      modifies this
      ensures workspaces == old(workspaces) - {path}
    {
      workspaces := workspaces - {path};
    }

    /**
     * `git clone --depth 1 <url> <path>` with `check=True`. git refuses a
     * destination that already exists and leaves it alone; a failed transfer
     * leaves nothing; a failed checkout keeps the directory with what was
     * written. Only a complete clone reports success.
     */
    method Clone(path: string, fetch: Fetch) returns (ok: bool)
      modifies this
      ensures ok <==> fetch.Fetched? && path !in old(workspaces)
      ensures path in old(workspaces) ==> workspaces == old(workspaces)
      ensures path !in old(workspaces) ==> workspaces == match fetch
        case TransferFailed => old(workspaces)
        case CheckoutFailed(partial) => old(workspaces)[path := partial]
        case Fetched(tree) => old(workspaces)[path := tree]
    {
      ok := false;
      if path !in workspaces {
        match fetch {
          case TransferFailed =>
          case CheckoutFailed(partial) =>
            workspaces := workspaces[path := partial];
          case Fetched(tree) =>
            workspaces := workspaces[path := tree];
            ok := true;
        }
      }
    }
  }
}

=== FILE: pipeline.dfy ===
/**
 * The background run `_clone_and_grade` of app/main.py and the handling of
 * one webhook delivery: the response is decided first, and the run it
 * schedules executes afterwards.
 */
module Pipeline {
  import opened PyStr
  import opened Filesystem
  import opened Admission
  import opened Runner

  /** How one background run ends. */
  datatype RunOutcome =
    | MissingCloneUrl            // `repo["clone_url"]` raised KeyError
    | CloneFailed                // `git clone` exited non-zero: CalledProcessError escapes the run
    | Graded(result: GradeOutcome)  // `grade_repository` returned or raised; either way only logged

  /** What a background run ends with, given what the clone fetches and the container's exit status. */
  function RunSpec(cloneUrl: Option<string>, fetch: Fetch, dockerExit: int): (r: RunOutcome)
    ensures r.Graded? <==> cloneUrl.Some? && fetch.Fetched?
  {
    if cloneUrl.None? then MissingCloneUrl
    else if !fetch.Fetched? then CloneFailed
    else Graded(GradeSpec(Some(fetch.tree), dockerExit))
  }

  /**
   * The workspace a background run leaves at its path: the partly written
   * clone when the checkout failed, since that raises before the `try` and
   * its `finally` never runs; nothing otherwise.
   */
  function Leftover(cloneUrl: Option<string>, fetch: Fetch): (w: Option<Tree>)
    ensures w.Some? <==> cloneUrl.Some? && fetch.CheckoutFailed?
    ensures w.Some? ==> w.value == fetch.partial && RunSpec(cloneUrl, fetch, 0) == CloneFailed
  {
    if cloneUrl.Some? && fetch.CheckoutFailed? then Some(fetch.partial) else None
  }

  /** The workspaces after a run at `path`: that path removed, then `left` put back if there is one. */
  function AfterRun(workspaces: map<string, Tree>, path: string, left: Option<Tree>): (r: map<string, Tree>)
    ensures path !in r <==> left.None?
    ensures left.Some? ==> r[path] == left.value
    ensures r - {path} == workspaces - {path}
  {
    if left.Some? then (workspaces - {path})[path := left.value] else workspaces - {path}
  }

  /**
   * `_clone_and_grade`: remove any old workspace, clone, grade, and remove
   * the workspace again in the `finally`. A clone that fails at checkout
   * raises before the `try` and leaves its partial workspace; in every other
   * case the workspace is absent when the run ends. No other workspace path
   * is touched.
   */
  method CloneAndGrade(fs: Store, job: Job, fetch: Fetch, dockerExit: int) returns (outcome: RunOutcome)
    modifies fs
    ensures outcome == RunSpec(job.cloneUrl, fetch, dockerExit)
    ensures fs.workspaces == AfterRun(old(fs.workspaces), job.path, Leftover(job.cloneUrl, fetch))
  {
    fs.RemoveTree(job.path);
    if job.cloneUrl.None? {
      return MissingCloneUrl;
    }
    var cloned := fs.Clone(job.path, fetch);
    if !cloned {
      return CloneFailed;
    }
    var result := GradeRepository(fs, job.path, dockerExit);
    fs.RemoveTree(job.path);
    outcome := Graded(result);
  }

  /**
   * One delivery to `/webhook`: the response is decided without touching the
   * filesystem; an accepted push then runs its one background job, and any
   * other response runs nothing.
   */
  method Deliver(fs: Store, cfg: Config, req: Request, hmac: HmacOracle, fetch: Fetch, dockerExit: int)
    returns (d: Decision, run: Option<RunOutcome>)
    modifies fs
    ensures d == Webhook(cfg, req, hmac)
    ensures d.Accepted? ==> run == Some(RunSpec(d.job.cloneUrl, fetch, dockerExit))
    ensures d.Accepted? ==> fs.workspaces == AfterRun(old(fs.workspaces), d.job.path, Leftover(d.job.cloneUrl, fetch))
    ensures !d.Accepted? ==> run == None && fs.workspaces == old(fs.workspaces)
  {
    d := Webhook(cfg, req, hmac);
    run := None;
    if d.Accepted? {
      var outcome := CloneAndGrade(fs, d.job, fetch, dockerExit);
      run := Some(outcome);
    }
  }

  /**
   * The same push delivered twice: both deliveries get the same response,
   * each run is graded on its own inputs only, and the second run's first
   * `rmtree` clears whatever the first left, so the final workspaces depend
   * on the second run alone.
   */
  method DeliverTwice(fs: Store, cfg: Config, req: Request, hmac: HmacOracle,
                      fetch1: Fetch, dockerExit1: int, fetch2: Fetch, dockerExit2: int)
    returns (d1: Decision, run1: Option<RunOutcome>, d2: Decision, run2: Option<RunOutcome>)
    modifies fs
    ensures d1 == d2 == Webhook(cfg, req, hmac)
    ensures d1.Accepted? ==>
      run1 == Some(RunSpec(d1.job.cloneUrl, fetch1, dockerExit1)) &&
      run2 == Some(RunSpec(d1.job.cloneUrl, fetch2, dockerExit2)) &&
      fs.workspaces == AfterRun(old(fs.workspaces), d1.job.path, Leftover(d1.job.cloneUrl, fetch2))
    ensures !d1.Accepted? ==> run1 == None && run2 == None && fs.workspaces == old(fs.workspaces)
  {
    ghost var before := fs.workspaces;
    d1, run1 := Deliver(fs, cfg, req, hmac, fetch1, dockerExit1);
    ghost var middle := fs.workspaces;
    d2, run2 := Deliver(fs, cfg, req, hmac, fetch2, dockerExit2);
    if d1.Accepted? {
      var path, left2 := d1.job.path, Leftover(d1.job.cloneUrl, fetch2);
      assert middle - {path} == before - {path};
      assert fs.workspaces == AfterRun(middle, path, left2);
    }
  }

  /** A clone that fails at checkout ends the run as `CloneFailed` and leaves the partial workspace on disk. */
  lemma CheckoutFailureLeavesWorkspace(workspaces: map<string, Tree>, path: string, url: string, partial: Tree, dockerExit: int)
    ensures RunSpec(Some(url), CheckoutFailed(partial), dockerExit) == CloneFailed
    ensures var after := AfterRun(workspaces, path, Leftover(Some(url), CheckoutFailed(partial)));
      path in after && after[path] == partial
  {
  }

  /**
   * The container cannot write to its read-only mount, so the score is read
   * from the `.report.json` that the clone brought in: a run with a cloned
   * tree and a clean container exit scores exactly what that file says.
   */
  lemma ScoreComesFromClonedTree(url: string, tree: Tree, v: Json)
    ensures RunSpec(Some(url), Fetched(tree), 0) == Graded(Score(v)) <==>
      REPORT_NAME in tree && tree[REPORT_NAME].JsonObject? && ReportScore(tree[REPORT_NAME].fields) == v
  {
  }

  /** A run that ends in a score needed a clone URL, a successful clone and a clean container exit. */
  lemma ScoredRunNeedsEverySuccess(cloneUrl: Option<string>, fetch: Fetch, dockerExit: int)
    requires RunSpec(cloneUrl, fetch, dockerExit).Graded?
    requires RunSpec(cloneUrl, fetch, dockerExit).result.Score?
    ensures cloneUrl.Some? && fetch.Fetched? && dockerExit == 0
    ensures Leftover(cloneUrl, fetch).None?
  {
  }

  /**
   * End to end: a correctly signed push of an allow-listed repository whose
   * clone carries `{"score": s}` and whose container exits with 0 is
   * answered `{"accepted": True}` and graded `s`.
   */
  lemma AcceptedPushIsGraded(cfg: Config, req: Request, hmac: HmacOracle, tree: Tree, s: int)
    requires IsHex(hmac(cfg.secret, req.body))
    requires req.signature == Some(SIGNATURE_PREFIX + hmac(cfg.secret, req.body))
    requires req.event == Some(PUSH_EVENT)
    requires req.payload.Some? && req.payload.value.fullName.Some?
    requires req.payload.value.login.Some? && req.payload.value.after.Some? && req.payload.value.cloneUrl.Some?
    requires Allowed(req.payload.value.fullName.value, cfg.allowedRepos)
    requires REPORT_NAME in tree && tree[REPORT_NAME] == JsonObject(map[SCORE_KEY := JInt(s)])
    ensures Webhook(cfg, req, hmac).Accepted?
    ensures RunSpec(Webhook(cfg, req, hmac).job.cloneUrl, Fetched(tree), 0) == Graded(Score(JInt(s)))
  {
    GenuineSignaturePasses(req.body, cfg.secret, hmac);
    AcceptedIff(cfg, req, hmac);
  }
}

=== FILE: pystr.dfy ===
/**
 * The Python string builtins the webhook handler relies on: `str.strip()`,
 * `str.split(sep)`, `str.startswith`, slicing `s[:n]`, `posixpath.join`, and
 * the ASCII restriction of `hmac.compare_digest` on `str` arguments.
 * Strings are sequences of Unicode scalar values; Python's `str` also admits
 * lone surrogate code points, which this model does not represent.
 */
module PyStr {

  datatype Option<+T> = None | Some(value: T)

  /** Python's `str.isspace()` for one character. */
  predicate IsSpace(c: char) {
    var n := c as int;
    n == 0x20 || 0x09 <= n <= 0x0D || 0x1C <= n <= 0x1F || n == 0x85 || n == 0xA0 ||
    n == 0x1680 || 0x2000 <= n <= 0x200A || n == 0x2028 || n == 0x2029 ||
    n == 0x202F || n == 0x205F || n == 0x3000
  }

  predicate AllSpace(s: string) {
    forall i :: 0 <= i < |s| ==> IsSpace(s[i])
  }

  /** Neither the first nor the last character is whitespace. */
  predicate Trimmed(s: string) {
    s == [] || (!IsSpace(s[0]) && !IsSpace(s[|s| - 1]))
  }

  predicate StartsWith(s: string, prefix: string) {
    |prefix| <= |s| && s[..|prefix|] == prefix
  }

  predicate IsAscii(s: string) {
    forall i :: 0 <= i < |s| ==> s[i] as int < 128
  }

  /** Lower-case hexadecimal digits, as `hexdigest()` and `uuid4().hex` produce. */
  predicate IsHex(s: string) {
    forall i :: 0 <= i < |s| ==> '0' <= s[i] <= '9' || 'a' <= s[i] <= 'f'
  }

  /** `s.lstrip()`: drop the leading whitespace. */
  function StripLeading(s: string): (r: string)
    ensures |r| <= |s| && (r == [] || !IsSpace(r[0]))
  {
    if s != [] && IsSpace(s[0]) then StripLeading(s[1..]) else s
  }

  /** `s.rstrip()`: drop the trailing whitespace. */
  function StripTrailing(s: string): (r: string)
    ensures |r| <= |s| && (r == [] || !IsSpace(r[|r| - 1]))
  {
    if s != [] && IsSpace(s[|s| - 1]) then StripTrailing(s[..|s| - 1]) else s
  }

  /** `s.strip()`: whitespace removed from both ends. */
  function Strip(s: string): (r: string)
    ensures |r| <= |s|
  {
    StripTrailing(StripLeading(s))
  }

  /** `lstrip()` removes a whitespace prefix and leaves a suffix that does not start with whitespace. */
  lemma {:induction false} StripLeadingShape(s: string)
    ensures var r := StripLeading(s);
      |r| <= |s| && r == s[|s| - |r|..] && AllSpace(s[..|s| - |r|]) &&
      (r == [] || !IsSpace(r[0]))
  {
    if s != [] && IsSpace(s[0]) {
      var rest := s[1..];
      StripLeadingShape(rest);
      var r := StripLeading(rest);
      assert s[..|s| - |r|] == [s[0]] + rest[..|rest| - |r|];
    }
  }

  /** `rstrip()` removes a whitespace suffix and leaves a prefix that does not end with whitespace. */
  lemma {:induction false} StripTrailingShape(s: string)
    ensures var r := StripTrailing(s);
      |r| <= |s| && r == s[..|r|] && AllSpace(s[|r|..]) &&
      (r == [] || !IsSpace(r[|r| - 1]))
  {
    if s != [] && IsSpace(s[|s| - 1]) {
      var front := s[..|s| - 1];
      StripTrailingShape(front);
      var r := StripTrailing(front);
      assert s[|r|..] == front[|r|..] + [s[|s| - 1]];
    }
  }

  /** The result of `strip()` neither starts nor ends with whitespace. */
  lemma StripIsTrimmed(s: string)
    ensures Trimmed(Strip(s))
  {
    var t := StripLeading(s);
    StripLeadingShape(s);
    StripTrailingShape(t);
  }

  lemma {:induction false} StripLeadingPadded(w: string, t: string)
    requires AllSpace(w)
    requires t == [] || !IsSpace(t[0])
    ensures StripLeading(w + t) == t
  {
    if w != [] {
      assert (w + t)[1..] == w[1..] + t;
      StripLeadingPadded(w[1..], t);
    }
  }

  lemma {:induction false} StripTrailingPadded(t: string, w: string)
    requires AllSpace(w)
    requires t == [] || !IsSpace(t[|t| - 1])
    ensures StripTrailing(t + w) == t
  {
    if w != [] {
      var s := t + w;
      assert s[..|s| - 1] == t + w[..|w| - 1];
      StripTrailingPadded(t, w[..|w| - 1]);
    }
  }

  /**
   * `strip()` removes exactly the whitespace padding: a trimmed core with
   * whitespace on either side strips back to that core.
   */
  lemma StripPadded(w1: string, t: string, w2: string)
    requires AllSpace(w1) && AllSpace(w2) && Trimmed(t)
    ensures Strip(w1 + t + w2) == t
  {
    if t == [] {
      assert w1 + t + w2 == w1 + w2;
      assert AllSpace(w1 + w2);
      StripLeadingPadded(w1 + w2, []);
      assert w1 + w2 + [] == w1 + w2;
    } else {
      assert w1 + t + w2 == w1 + (t + w2);
      StripLeadingPadded(w1, t + w2);
      StripTrailingPadded(t, w2);
    }
  }

  /** A trimmed string is left unchanged. */
  lemma StripTrimmed(t: string)
    ensures Trimmed(t) ==> Strip(t) == t
  {
    if Trimmed(t) {
      assert [] + t + [] == t;
      StripPadded([], t, []);
    }
  }

  /** Number of occurrences of `d` in `s`. */
  function Count(s: string, d: char): (n: nat)
    ensures n <= |s|
  {
    if s == [] then 0 else (if s[0] == d then 1 else 0) + Count(s[1..], d)
  }

  lemma {:induction false} CountZero(s: string, d: char)
    ensures Count(s, d) == 0 <==> d !in s
  {
    if s != [] {
      CountZero(s[1..], d);
      assert s == [s[0]] + s[1..];
    }
  }

  /**
   * `s.split(d)` for a one-character separator: the pieces between the
   * separators, one more piece than there are separators, none containing
   * the separator.
   */
  function Split(s: string, d: char): (parts: seq<string>)
    ensures |parts| == Count(s, d) + 1
    ensures forall i :: 0 <= i < |parts| ==> d !in parts[i]
  {
    if s == [] then [""]
    else if s[0] == d then [""] + Split(s[1..], d)
    else
      var rest := Split(s[1..], d);
      [[s[0]] + rest[0]] + rest[1..]
  }

  /** `d.join(parts)` for a one-character separator. */
  function Join(parts: seq<string>, d: char): (s: string)
    requires |parts| >= 1
    ensures |s| >= |parts| - 1
  {
    if |parts| == 1 then parts[0] else parts[0] + [d] + Join(parts[1..], d)
  }

  /** Joining the pieces of a split gives back the original string. */
  lemma {:induction false} JoinSplit(s: string, d: char)
    ensures Join(Split(s, d), d) == s
  {
    if s == [] {
    } else if s[0] == d {
      JoinSplit(s[1..], d);
      assert s == [d] + s[1..];
    } else {
      var rest := Split(s[1..], d);
      JoinSplit(s[1..], d);
      var parts := Split(s, d);
      assert parts == [[s[0]] + rest[0]] + rest[1..];
      if |rest| == 1 {
        assert Join(rest, d) == rest[0];
      } else {
        assert parts[1..] == rest[1..];
        assert Join(rest, d) == rest[0] + [d] + Join(rest[1..], d);
      }
      assert s == [s[0]] + s[1..];
    }
  }

  /** A string free of the separator splits into itself alone. */
  lemma {:induction false} SplitFree(s: string, d: char)
    requires d !in s
    ensures Split(s, d) == [s]
  {
    if s != [] {
      SplitFree(s[1..], d);
      assert s == [s[0]] + s[1..];
    }
  }

  /** Splitting after a separator-free first piece peels that piece off. */
  lemma {:induction false} SplitAfterFree(a: string, d: char, b: string)
    requires d !in a
    ensures Split(a + [d] + b, d) == [a] + Split(b, d)
  {
    var s := a + [d] + b;
    if a == [] {
      assert s == [d] + b;
      assert s[1..] == b;
    } else {
      assert s[1..] == a[1..] + [d] + b;
      SplitAfterFree(a[1..], d, b);
      assert a == [a[0]] + a[1..];
    }
  }

  /** Splitting a join of separator-free pieces gives back the pieces. */
  lemma {:induction false} SplitJoin(parts: seq<string>, d: char)
    requires |parts| >= 1
    requires forall i :: 0 <= i < |parts| ==> d !in parts[i]
    ensures Split(Join(parts, d), d) == parts
  {
    if |parts| == 1 {
      SplitFree(parts[0], d);
    } else {
      SplitJoin(parts[1..], d);
      SplitAfterFree(parts[0], d, Join(parts[1..], d));
      assert parts == [parts[0]] + parts[1..];
    }
  }

  /** Python's slice `s[:n]` for `n >= 0`: at most the first `n` characters. */
  function Take(s: string, n: nat): (r: string)
    ensures |r| == if |s| < n then |s| else n
    ensures StartsWith(s, r)
  {
    if |s| < n then s else s[..n]
  }

  /**
   * `posixpath.join(a, b)`: an absolute `b` discards `a`; otherwise a `/`
   * is inserted unless `a` is empty or already ends with one.
   */
  function PosixJoin(a: string, b: string): (r: string)
    ensures |b| <= |r| && r[|r| - |b|..] == b
    ensures StartsWith(b, "/") ==> r == b
    ensures !StartsWith(b, "/") ==> StartsWith(r, a)
  {
    if StartsWith(b, "/") then b
    else if a == [] || a[|a| - 1] == '/' then a + b
    else a + "/" + b
  }
}

=== FILE: runner.dfy ===
/**
 * `grade_repository` (app/core/runner.py): run the grading container on a
 * workspace, read the report it leaves, extract the score and remove the
 * workspace. The container is mounted read-only, so running it leaves the
 * workspaces as they are; only its exit status is an input.
 */
module Runner {
  import opened PyStr
  import opened Filesystem

  const CONTAINER_PREFIX := "grader_"
  const REPORT_NAME := ".report.json"
  const SCORE_KEY := "score"

  /** How `grade_repository` ends: a returned score or the exception it raises. */
  datatype GradeOutcome =
    | Score(value: Json)   // returned
    | RuntimeError         // the container exited with a non-zero status
    | FileNotFound         // no report after a successful container run
    | IsADirectory         // the report path is a directory, so `open` raised
    | ParseError           // `json.load` raised on the report
    | AttributeError       // the report is not a JSON object, so `.get` raised

  /**
   * The container name `grader_<uuid4().hex[:8]>`; the random hex string is
   * an input.
   */
  function ContainerName(uuidHex: string): (name: string)
    requires |uuidHex| >= 8 && IsHex(uuidHex)
    ensures |name| == 15 && StartsWith(name, CONTAINER_PREFIX) && IsHex(name[|CONTAINER_PREFIX|..])
  {
    CONTAINER_PREFIX + uuidHex[..8]
  }

  /** `result.get("score", 0)`. */
  function ReportScore(fields: map<string, Json>): (score: Json)
    ensures score == JInt(0) || score in fields.Values
  {
    if SCORE_KEY in fields then fields[SCORE_KEY] else JInt(0)
  }

  /** What `grade_repository` ends with, given the workspace it finds and the container's exit status. */
  function GradeSpec(workspace: Option<Tree>, dockerExit: int): (r: GradeOutcome)
    ensures r == RuntimeError <==> dockerExit != 0
    ensures r.Score? ==> workspace.Some? && REPORT_NAME in workspace.value
  {
    if dockerExit != 0 then RuntimeError
    else if workspace.None? || REPORT_NAME !in workspace.value then FileNotFound
    else match workspace.value[REPORT_NAME]
      case Directory => IsADirectory
      case Unparsable => ParseError
      case JsonNonObject => AttributeError
      case JsonObject(fields) => Score(ReportScore(fields))
  }

  /**
   * `grade_repository(path, ...)`. Only a successful grading removes the
   * workspace; every exception leaves it for the caller.
   */
  method GradeRepository(fs: Store, path: string, dockerExit: int) returns (outcome: GradeOutcome)
    modifies fs
    ensures outcome == GradeSpec(Lookup(old(fs.workspaces), path), dockerExit)
    ensures fs.workspaces == if outcome.Score? then old(fs.workspaces) - {path} else old(fs.workspaces)
  {
    if dockerExit != 0 {
      return RuntimeError;
    }
    if path !in fs.workspaces || REPORT_NAME !in fs.workspaces[path] {
      return FileNotFound;
    }
    var report := fs.workspaces[path][REPORT_NAME];
    match report {
      case Directory =>
        return IsADirectory;
      case Unparsable =>
        return ParseError;
      case JsonNonObject =>
        return AttributeError;
      case JsonObject(fields) =>
        var score := ReportScore(fields);
        fs.RemoveTree(path);
        outcome := Score(score);
    }
  }

  /** A non-zero container exit is a `RuntimeError` before the report is looked at. */
  lemma DockerFailureShortCircuits(workspace: Option<Tree>, dockerExit: int)
    requires dockerExit != 0
    ensures GradeSpec(workspace, dockerExit) == RuntimeError
  {
  }

  /**
   * A score is returned iff the container exited with 0 and the workspace
   * holds a report that parses to a JSON object; the score is that object's
   * `score` field, and 0 when it has none.
   */
  lemma ScoreIff(workspace: Option<Tree>, dockerExit: int)
    ensures GradeSpec(workspace, dockerExit).Score? <==>
      dockerExit == 0 && workspace.Some? && REPORT_NAME in workspace.value &&
      workspace.value[REPORT_NAME].JsonObject?
    ensures GradeSpec(workspace, dockerExit).Score? ==>
      var fields := workspace.value[REPORT_NAME].fields;
      GradeSpec(workspace, dockerExit).value == if SCORE_KEY in fields then fields[SCORE_KEY] else JInt(0)
  {
  }

  /**
   * After a successful container run, a report path that is a directory
   * passes the existence check and raises from `open`; a report that
   * `json.load` rejects raises from the load, and one that parses to
   * something other than an object raises from `.get`.
   */
  lemma MalformedReportRaises(w: Tree)
    ensures REPORT_NAME in w && w[REPORT_NAME] == Directory ==> GradeSpec(Some(w), 0) == IsADirectory
    ensures REPORT_NAME in w && w[REPORT_NAME] == Unparsable ==> GradeSpec(Some(w), 0) == ParseError
    ensures REPORT_NAME in w && w[REPORT_NAME] == JsonNonObject ==> GradeSpec(Some(w), 0) == AttributeError
  {
  }

  /**
   * After a successful container run, a report path with nothing at it (not
   * even a directory) is `FileNotFound`, and a missing workspace reads as one.
   */
  lemma MissingReportIsFileNotFound(workspace: Option<Tree>)
    requires workspace.None? || REPORT_NAME !in workspace.value
    ensures GradeSpec(workspace, 0) == FileNotFound
  {
  }
}
